=== FILE: README.md ===
# Deep k-NN classifier: vote aggregation, calibration and credibility

This project is a Dafny model of the integer decision logic of the Deep
k-nearest-neighbour classifier (class `DKNN` in `lib/mnist_model.py`):

- **Neighbour-vote aggregation.** For each configured layer, the layer's
  index returns `k` neighbour positions per query sample. Each position is
  mapped through the shared training-label array. The labels are tallied
  with `np.bincount(..., minlength=10)` into a per-sample, per-class count
  matrix, summed over the layers (`get_neighbors`, `classify`).
- **Calibration.** At construction the calibration batch is classified
  against the frozen indices. Sample `i` gets the nonconformity score
  `A[i] = k·L − votes[i][y_cal[i]]`, where `L` is the number of layers. A
  hook-count assertion comes first, and it is the only check the
  constructor makes.
- **Credibility.** For a vote row, `a = k·L − max(row)`. The credibility is
  `|{j : A[j] ≥ a}| / |A|`, the rank-based p-value of conformal prediction.

The modules follow these parts:

- `Histogram` holds bincount, row addition and row sums.
- `Neighbours` holds the search results and the layer filter of `get_neighbors`.
- `Votes` holds the class-count matrix.
- `Calibration` holds the nonconformity scores.
- `Credibility` holds the p-value.
- `Classifier` is the `DKNN` façade: construction, `classify` and `credibility`.

The approximate index is an abstract input. For each configured layer the
caller supplies what that layer's index returns for the batch: one row of
training positions per query sample, each row `k` long, every position
naming a training sample.

What the code does at its edges, as modelled:

- Requested layer names that match no configured layer are ignored, not
  rejected (`Neighbours.UnknownNameIgnored`).
- `A` is kept unsorted; credibility does not depend on its order
  (`Credibility.CountAtLeastPermutation`).
- The constructor checks only the hook count (`Classifier.Build`). It does
  not check that search positions name training samples, that training
  labels are naturals below 10, or that calibration labels index the count
  row; the model makes all three preconditions of `Build`.
- An empty calibration batch builds, with `A` empty (`Classifier.Build`).
  Only `credibility` then divides by zero, so `|A| > 0` is a precondition
  of `Classifier.CredibilityOf`.
- `np.bincount` is called with `minlength=10` whatever `num_classes` is, so
  the model fixes `numClasses == 10` (`Votes.ClassCounts`).
- `classify` always searches every layer. A caller that tallies a subset
  result of `get_neighbors(x, layers=...)` the way `classify` does gets rows
  summing to `k` times the number of selected layers, which `credibility`
  still measures against `k·L` (`Classifier.PartialQueryRowSums`).
- There is no `predict` or argmax; the class counts are the output.

## Model

| member | source | states |
|---|---|---|
| Histogram.Bincount | lib/mnist_model.py:140 | cell `c` of `np.bincount(xs, minlength)` is the multiplicity of `c` in `xs`; the row is `minlength` long or one past the largest label; its cells sum to `|xs|` |
| Histogram.BincountLength | lib/mnist_model.py:140 | when every label is below `minlength`, the histogram is exactly `minlength` wide, so it broadcasts onto a 10-class count row |
| Histogram.AddRow | lib/mnist_model.py:140 | `class_counts[i] += h` adds cell by cell, and the row total grows by the total of `h` |
| Histogram.CellAtMostSum | lib/mnist_model.py:84 | no cell of a count row exceeds the row total |
| Neighbours.SelectedPositions | lib/mnist_model.py:122-123 | the layers kept are exactly those whose name is requested, each once, in the classifier's layer order |
| Neighbours.FilterLayers | lib/mnist_model.py:120-131 | the zip-and-filter loop of `get_neighbors` returns the search results of exactly the selected layers, in layer order |
| Neighbours.AllRequestedSelectsAll | lib/mnist_model.py:118-123 | when every layer is requested, every layer position is selected, in order |
| Neighbours.FilterAllLayers | lib/mnist_model.py:118-123 | requesting all configured layers (the default) keeps every layer's search result unchanged and in order |
| Neighbours.UnknownNameIgnored | lib/mnist_model.py:122-123 | a requested name that names no configured layer changes nothing and is not rejected |
| Votes.LabelRow | lib/mnist_model.py:138 | `y_train[I[i]]` has one label per neighbour, and label `j` is the training label at neighbour position `j` |
| Votes.VoteLabelsLength | lib/mnist_model.py:126-140 | each queried layer contributes exactly `k` neighbour labels, so a sample receives `k` times the number of layers votes |
| Votes.VoteLabelsInRange | lib/mnist_model.py:138 | every vote is the training label of a neighbour, so it is a valid class |
| Votes.LayerHistogram | lib/mnist_model.py:138-140 | one layer's histogram for one sample is 10 wide, sums to `k`, and counts the labels `y_train[I[i]]` |
| Votes.ClassCounts | lib/mnist_model.py:136-140 | the count matrix has one 10-cell row per sample; cell `[i][c]` is the number of (layer, neighbour) pairs of sample `i` whose training label is `c`; every row sums to `k` times the number of layers |
| Votes.CountsBounded | lib/mnist_model.py:136-140 | no cell of the count matrix exceeds `k` times the number of layers |
| Votes.AgreementsPlusDisagreements | lib/mnist_model.py:84 | the votes for class `y` plus the votes for any other class make up all the votes |
| Calibration.Nonconformity | lib/mnist_model.py:82-84 | `A[i] + votes[i][y_cal[i]] == k·L` for each sample that `zip` pairs with a label; a sample without a label keeps `k·L`; one score per calibration sample |
| Calibration.NonconformityBounds | lib/mnist_model.py:82-84 | when every vote row sums to `k·L`, every score lies in `[0, k·L]` |
| Credibility.Max | lib/mnist_model.py:145 | `np.max(row)` is an element of the row and at least every element |
| Credibility.CountAtLeast | lib/mnist_model.py:148 | `np.sum(A >= a)` never exceeds the number of calibration scores |
| Credibility.Alpha | lib/mnist_model.py:145 | `a = k·L − max(row)` is the smallest per-class nonconformity `k·L − row[c]` and is attained by some class; it is at most `k·L` |
| Credibility.CountAtLeastIsCardinality | lib/mnist_model.py:148 | `np.sum(A >= a)` is the size of the index set `{j : A[j] ≥ a}`, so scores equal to `a` are counted |
| Credibility.CountAtLeastAntitone | lib/mnist_model.py:148 | a higher threshold never counts more calibration scores |
| Credibility.CountAtLeastPermutation | lib/mnist_model.py:148 | the count depends only on the multiset of calibration scores, not on their order |
| Credibility.CredibilityAt | lib/mnist_model.py:148-149 | the credibility for a nonconformity `a` is a fraction in `[0, 1]` |
| Credibility.RowCredibility | lib/mnist_model.py:145-149 | a row's credibility, computed from `a = k·L − max(row)`, lies in `[0, 1]` |
| Credibility.Credibilities | lib/mnist_model.py:146-149 | one credibility per input row, in input order; value `i` is the credibility of row `i` against `A` alone, in `[0, 1]` |
| Credibility.CredibilityAntitone | lib/mnist_model.py:145-149 | credibility is non-increasing in the nonconformity `a` |
| Credibility.CredibilityMonotoneInMax | lib/mnist_model.py:145-149 | credibility is non-decreasing in the row's largest vote count |
| Credibility.UnanimousRowFullyCredible | lib/mnist_model.py:145-149 | with all calibration scores non-negative, a row whose largest count is `k·L` gives `a = 0` and credibility exactly 1 |
| Credibility.StrangestRowZeroCredible | lib/mnist_model.py:145-149 | a nonconformity above every calibration score gives credibility 0 |
| Credibility.CredibilitiesAppend | lib/mnist_model.py:146-149 | scoring a batch in two parts gives the two parts' scores, concatenated in order |
| Credibility.CalibrationExample | lib/mnist_model.py:145-149 | calibration scores `[0, 1, 1, 2, 4]` and `a = 1` give credibility 4/5 |
| Classifier.TotalVotes | lib/mnist_model.py:82 | `k·L` is the number of votes every query sample receives when all configured layers are searched |
| Classifier.GetNeighbours | lib/mnist_model.py:115-131 | with no layer list, every configured layer's result is returned unchanged and in order; with a list, exactly the selected layers' results are returned, in layer order |
| Classifier.Classify | lib/mnist_model.py:133-141 | `classify` queries all layers; cell `[i][c]` counts the (layer, neighbour) votes of sample `i` for class `c`; each row sums to `k·L` |
| Classifier.Build | lib/mnist_model.py:66-84 | construction fails exactly when the hook count differs from the number of layers; otherwise it keeps the configuration and sets `A[i]` to the number of sample `i`'s calibration votes that disagree with its label (`k·L` for a sample without a label), each in `[0, k·L]` |
| Classifier.CredibilityOf | lib/mnist_model.py:143-149 | `credibility` returns, per row and in order, the fraction of calibration scores at least `k·L − max(row)`, each in `[0, 1]` |
| Classifier.UnanimousQueryFullyCredible | lib/mnist_model.py:143-149 | for a constructed classifier, a query whose `k·L` votes all fall on one class has credibility 1 |
| Classifier.PartialQueryRowSums | lib/mnist_model.py:115-141 | tallying a `get_neighbors` result over requested layers the way `classify` does gives rows summing to `k` times the number of selected layers, not `k·L` |
| Classifier.HookCount | lib/mnist_model.py:66-70 | the hooks registered are the children whose name is a configured layer, so there are never more than children |
| Classifier.HookCountIsSharedNames | lib/mnist_model.py:66-70 | over uniquely named children, the hook count is the number of names the children and the configured layers share |
| Classifier.HookCheckPassesIff | lib/mnist_model.py:66-71 | with uniquely named children, the layer-count assertion holds if and only if the configured layers are duplicate-free and each names a child |
| Classifier.EndToEndExample | lib/mnist_model.py:133-141 | three layers, `k = 2`, labels `[0, 0, 1, 1]`, and both neighbours of class 1 at every layer give the vote row `[0, 6, 0, …, 0]` |

## Left out

- The faiss `IndexLSH` construction and search (lib/mnist_model.py:92-109, 126). This is a foreign, approximate library. Its results are an input, under two preconditions: each row has `k` positions, and each position is below `|y_train|`. faiss marks missing neighbours with -1, and numpy would silently wrap -1 to the last label. That case is excluded, not modelled.
- The distances `D` returned by a search. `classify` never reads them.
- The embedding model, forward hooks, `get_activations` and the L2 `renorm` of activations (lib/mnist_model.py:65-77, 86-90, 111-113, 124-125). These are float tensors and mutable torch state. The hook registration survives only as the count `HookCount` over the model's child names.
- The `k` argument of `get_neighbors`. It only changes what the search returns. In the model it appears only as the row length of the supplied search results.
- Float arithmetic. Vote counts are exact naturals; numpy holds them in float64, which represents them exactly. Credibility is an exact rational rather than a float division.
- Votes.ClassCounts: requires `numClasses == 10` and every training label below it. `np.bincount(..., minlength=10)` is hard-coded, so for any other `num_classes` the addition fails unless every per-layer histogram happens to be `num_classes` wide; the model fixes `numClasses == 10`. A negative training label among a sample's neighbours makes `np.bincount` raise `ValueError`; training labels are naturals here, so that case is not modelled.
- Calibration.Nonconformity: a calibration label of `num_classes` or more raises `IndexError` in numpy, and a negative one silently indexes from the end of the row (`-1` reads class 9's count). Labels are naturals below `numClasses` here, a precondition of `Classifier.Build`, so neither case is modelled.
- Credibility.CredibilityAt: an empty calibration set divides by zero. Here `|A| > 0` is a precondition. An empty vote row (`np.max` of nothing raises) is excluded the same way.
- All neural-network modules (`BasicModel`, `ClassAuxVAE`, `SNNLModel`, `HiddenMixupModel`, `mixup_data`) and the training script. These are float numerics and randomness.

=== FILE: calibration.dfy ===
/**
 Calibration of `DKNN.__init__`: the nonconformity score of every
 calibration sample is the number of possible votes (`k` times the number of
 layers) minus the votes its true class received.
 */
module Calibration {
  import opened Histogram

  /** Every calibration label that `zip` pairs with a vote row indexes a cell of that row. */
  predicate LabelsIndexRows(votes: seq<seq<nat>>, yCal: seq<nat>)
  {
    forall i :: 0 <= i < |votes| && i < |yCal| ==> yCal[i] < |votes[i]|
  }

  /**
   `A = zeros(n) + k*L`, then `A[i] -= votes[i][y_cal[i]]` for the pairs
   `zip(y_cal, votes)` produces. A row without a label (when `y_cal` is
   shorter) keeps the full score `kL`.
   */
  method Nonconformity(votes: seq<seq<nat>>, yCal: seq<nat>, kL: nat) returns (A: seq<int>)
    requires LabelsIndexRows(votes, yCal)
    ensures |A| == |votes|
    ensures forall i :: 0 <= i < |votes| && i < |yCal| ==> A[i] + votes[i][yCal[i]] == kL
    ensures forall i :: |yCal| <= i < |votes| ==> A[i] == kL
  {
    A := seq(|votes|, _ => kL);
    var i := 0;
    while i < |votes| && i < |yCal|
      invariant 0 <= i <= |votes|
      invariant i <= |yCal|
      invariant |A| == |votes|
      invariant forall j :: 0 <= j < i ==> A[j] + votes[j][yCal[j]] == kL
      invariant forall j :: i <= j < |votes| ==> A[j] == kL
    {
      A := A[i := A[i] - votes[i][yCal[i]]];
      i := i + 1;
    }
  }

  /**
   Given the row-sum invariant of the vote matrix (every row sums to `kL`),
   every nonconformity score lies in `[0, kL]`.
   */
  lemma NonconformityBounds(votes: seq<seq<nat>>, yCal: seq<nat>, kL: nat, A: seq<int>)
    requires LabelsIndexRows(votes, yCal)
    requires |A| == |votes|
    requires forall i :: 0 <= i < |votes| && i < |yCal| ==> A[i] + votes[i][yCal[i]] == kL
    requires forall i :: |yCal| <= i < |votes| ==> A[i] == kL
    requires forall i :: 0 <= i < |votes| ==> Sum(votes[i]) == kL
    ensures forall i :: 0 <= i < |A| ==> 0 <= A[i] <= kL
  {
    forall i | 0 <= i < |votes| && i < |yCal|
      ensures 0 <= A[i]
    {
      CellAtMostSum(votes[i], yCal[i]);
    }
  }
}

=== FILE: classifier.dfy ===
/**
 The `DKNN` classifier: construction (the hook-count check, then
 calibration against the frozen indices), `get_neighbors`, `classify` and
 `credibility`.

 The embedding model and the approximate indices are not modelled: at
 construction and at query time the caller supplies, per configured layer,
 what that layer's index returns for the batch.
 */
module Classifier {
  import opened Histogram
  import opened Neighbours
  import opened Votes
  import opened Calibration
  import opened Credibility

  /** A constructed classifier: the shared training labels, the layers, `k`, and the calibration scores `A`. */
  datatype Dknn = Dknn(yTrain: seq<nat>, layers: seq<LayerName>, k: nat, numClasses: nat, A: seq<int>)

  /** The constructor found a different number of hooked children than configured layers. */
  datatype BuildError = LayerCountMismatch(hooked: nat, requested: nat)

  datatype Option<T> = None | Some(value: T)

  datatype Result<T> = Ok(value: T) | Err(error: BuildError)

  /**
   `self.k * len(self.layers)`: the number of votes every query sample
   receives when all configured layers are searched for `k` neighbours.
   */
  function TotalVotes(d: Dknn): (t: nat)
    ensures forall searched: seq<NeighbourMatrix>, n: nat, i: nat ::
              |searched| == |d.layers| && WellFormedLayers(searched, n, d.k, |d.yTrain|) && i < n
              ==> |VoteLabels(d.yTrain, searched, n, d.k, i)| == t
  {
    AllVotesLength(d.yTrain, |d.layers|, d.k);
    d.k * |d.layers|
  }

  lemma AllVotesLength(yTrain: seq<nat>, numLayers: nat, k: nat)
    ensures forall searched: seq<NeighbourMatrix>, n: nat, i: nat ::
              |searched| == numLayers && WellFormedLayers(searched, n, k, |yTrain|) && i < n
              ==> |VoteLabels(yTrain, searched, n, k, i)| == k * numLayers
  {
    forall searched: seq<NeighbourMatrix>, n: nat, i: nat |
      |searched| == numLayers && WellFormedLayers(searched, n, k, |yTrain|) && i < n
      ensures |VoteLabels(yTrain, searched, n, k, i)| == k * numLayers
    {
      VoteLabelsLength(yTrain, searched, n, k, i);
    }
  }

  /** What `classify` needs: ten classes (the bincount width) and every training label below it. */
  predicate Configured(d: Dknn)
  {
    && d.numClasses == BincountMinLength
    && LabelsInRange(d.yTrain, d.numClasses)
  }

  /** A constructed classifier: configured, and every calibration score within `[0, k*L]`. */
  predicate Valid(d: Dknn)
  {
    && Configured(d)
    && forall j :: 0 <= j < |d.A| ==> 0 <= d.A[j] <= TotalVotes(d)
  }

  predicate NoDuplicates(s: seq<LayerName>)
  {
    forall i, j :: 0 <= i < j < |s| ==> s[i] != s[j]
  }

  function Elements(s: seq<LayerName>): (names: set<LayerName>)
    ensures forall x :: x in names <==> x in s
  {
    set x | x in s
  }

  /** Number of the model's named children whose name is among `layers` (the hooks registered). */
  function HookCount(children: seq<LayerName>, layers: seq<LayerName>): (c: nat)
    ensures c <= |children|
  {
    if |children| == 0 then 0
    else HookCount(children[..|children| - 1], layers) + (if children[|children| - 1] in layers then 1 else 0)
  }

  /**
   `get_neighbors`: the search results of the layers named in `requested`
   (all configured layers when it is `None`), in the classifier's layer
   order. `searched[l]` is what the index of `d.layers[l]` returns for the
   batch, already at the requested `k`.
   */
  function GetNeighbours(d: Dknn, searched: seq<NeighbourMatrix>, requested: Option<seq<LayerName>>)
    : (out: seq<NeighbourMatrix>)
    requires |searched| == |d.layers|
    ensures requested.None? ==> out == searched
    ensures requested.Some? ==>
              |out| == |SelectedPositions(d.layers, requested.value)|
              && forall t :: 0 <= t < |out| ==>
                   out[t] == searched[SelectedPositions(d.layers, requested.value)[t]]
  {
    if requested.None? then
      FilterAllLayers(d.layers, searched);
      FilterLayers(d.layers, searched, d.layers)
    else
      FilterLayers(d.layers, searched, requested.value)
  }

  /**
   `classify`: the class-count matrix of a batch of `n` samples over all
   configured layers. Cell `[i][c]` counts the (layer, neighbour) pairs of
   sample `i` whose training label is `c`; every row sums to `k*L`.
   */
  function Classify(d: Dknn, searched: seq<NeighbourMatrix>, n: nat): (counts: seq<seq<nat>>)
    requires Configured(d)
    requires |searched| == |d.layers|
    requires WellFormedLayers(searched, n, d.k, |d.yTrain|)
    ensures |counts| == n
    ensures forall i :: 0 <= i < n ==> |counts[i]| == d.numClasses
    ensures forall i :: 0 <= i < n ==> Sum(counts[i]) == TotalVotes(d)
    ensures forall i, c :: 0 <= i < n && 0 <= c < d.numClasses ==>
              counts[i][c] == multiset(VoteLabels(d.yTrain, searched, n, d.k, i))[c]
  {
    ClassCounts(d.yTrain, GetNeighbours(d, searched, None), n, d.k, d.numClasses)
  }

  /**
   The constructor. It fails exactly when the number of hooked children
   differs from the number of configured layers. Otherwise the calibration
   batch of `nCal` samples is classified against the frozen indices
   (`calSearched`) and each calibration sample's score is the number of its
   votes that disagree with its label.
   */
  method Build(children: seq<LayerName>, yTrain: seq<nat>, layers: seq<LayerName>, k: nat, numClasses: nat,
               calSearched: seq<NeighbourMatrix>, nCal: nat, yCal: seq<nat>) returns (r: Result<Dknn>)
    requires numClasses == BincountMinLength
    requires LabelsInRange(yTrain, numClasses)
    requires |calSearched| == |layers|
    requires WellFormedLayers(calSearched, nCal, k, |yTrain|)
    requires forall i :: 0 <= i < nCal && i < |yCal| ==> yCal[i] < numClasses
    ensures r.Err? <==> HookCount(children, layers) != |layers|
    ensures r.Err? ==> r.error == LayerCountMismatch(HookCount(children, layers), |layers|)
    ensures r.Ok? ==> && Valid(r.value)
                      && r.value.yTrain == yTrain && r.value.layers == layers
                      && r.value.k == k && r.value.numClasses == numClasses
                      && |r.value.A| == nCal
    ensures r.Ok? ==> forall i :: 0 <= i < nCal && i < |yCal| ==>
              r.value.A[i] == Disagreements(VoteLabels(yTrain, calSearched, nCal, k, i), yCal[i])
    ensures r.Ok? ==> forall i :: |yCal| <= i < nCal ==> r.value.A[i] == k * |layers|
  {
    var hooked := HookCount(children, layers);
    if hooked != |layers| {
      return Err(LayerCountMismatch(hooked, |layers|));
    }
    var d := Dknn(yTrain, layers, k, numClasses, []);
    var votes := Classify(d, calSearched, nCal);
    var A := Nonconformity(votes, yCal, TotalVotes(d));
    NonconformityBounds(votes, yCal, TotalVotes(d), A);
    forall i | 0 <= i < nCal && i < |yCal|
      ensures A[i] == Disagreements(VoteLabels(yTrain, calSearched, nCal, k, i), yCal[i])
    {
      VoteLabelsLength(yTrain, calSearched, nCal, k, i);
      AgreementsPlusDisagreements(VoteLabels(yTrain, calSearched, nCal, k, i), yCal[i]);
    }
    r := Ok(d.(A := A));
  }

  /** `credibility`: one value per vote row, in row order, each in `[0, 1]`. */
  function CredibilityOf(d: Dknn, counts: seq<seq<nat>>): (creds: seq<real>)
    requires |d.A| > 0
    requires forall i :: 0 <= i < |counts| ==> |counts[i]| > 0
    ensures |creds| == |counts|
    ensures forall i :: 0 <= i < |counts| ==>
              creds[i] == CredibilityAt(d.A, TotalVotes(d) - Max(counts[i]))
    ensures forall i :: 0 <= i < |counts| ==> 0.0 <= creds[i] <= 1.0
  {
    Credibilities(d.A, TotalVotes(d), counts)
  }

  /**
   `classify` always searches every layer. Tallying a `get_neighbors` result
   over requested layers the same way gives rows that sum to `k` times the
   number of selected layers, not `k*L`: credibility still measures such
   rows against the full `k*L`.
   */
  lemma PartialQueryRowSums(d: Dknn, searched: seq<NeighbourMatrix>, requested: seq<LayerName>, n: nat)
    requires Configured(d)
    requires |searched| == |d.layers|
    requires WellFormedLayers(searched, n, d.k, |d.yTrain|)
    ensures var nb := GetNeighbours(d, searched, Some(requested));
            WellFormedLayers(nb, n, d.k, |d.yTrain|)
            && forall i :: 0 <= i < n ==>
                 Sum(ClassCounts(d.yTrain, nb, n, d.k, d.numClasses)[i])
                 == d.k * |SelectedPositions(d.layers, requested)|
  {
    FilterWellFormed(d.layers, searched, requested, n, d.k, |d.yTrain|);
  }

  /** A query whose votes all fall on one class is fully credible. */
  lemma UnanimousQueryFullyCredible(d: Dknn, counts: seq<seq<nat>>, i: nat)
    requires Valid(d)
    requires |d.A| > 0
    requires forall r :: 0 <= r < |counts| ==> |counts[r]| > 0
    requires i < |counts|
    requires Max(counts[i]) == TotalVotes(d)
    ensures CredibilityOf(d, counts)[i] == 1.0
  {
    UnanimousRowFullyCredible(d.A, TotalVotes(d), counts[i]);
  }

  lemma SubsetCardinality(S: set<LayerName>, T: set<LayerName>)
    requires S <= T
    ensures |S| <= |T|
  {
    assert T == S + (T - S);
    assert S * (T - S) == {};
  }

  /** In a duplicate-free list the last name is new and the rest is duplicate-free. */
  lemma LastIsNew(s: seq<LayerName>)
    requires NoDuplicates(s)
    requires |s| > 0
    ensures NoDuplicates(s[..|s| - 1])
    ensures s[|s| - 1] !in Elements(s[..|s| - 1])
  {
  }

  lemma ElementsAppend(s: seq<LayerName>, x: LayerName)
    ensures Elements(s + [x]) == Elements(s) + {x}
  {
  }

  /** Adding a fresh name `c` to `E` adds it to the shared names iff `c` is in `L`. */
  lemma SharedNamesAdd(E: set<LayerName>, L: set<LayerName>, c: LayerName)
    requires c !in E
    ensures c in L ==> (E + {c}) * L == E * L + {c} && |(E + {c}) * L| == |E * L| + 1
    ensures c !in L ==> (E + {c}) * L == E * L
  {
  }

  /** Over duplicate-free children, the hook count is the number of names both lists share. */
  lemma {:induction false} HookCountIsSharedNames(children: seq<LayerName>, layers: seq<LayerName>)
    requires NoDuplicates(children)
    ensures HookCount(children, layers) == |Elements(children) * Elements(layers)|
  {
    if |children| > 0 {
      var m := |children| - 1;
      var init := children[..m];
      var c := children[m];
      LastIsNew(children);
      HookCountIsSharedNames(init, layers);
      assert children == init + [c];
      ElementsAppend(init, c);
      SharedNamesAdd(Elements(init), Elements(layers), c);
    }
  }

  /** A list has at most as many distinct names as entries, and exactly as many iff it has no duplicates. */
  lemma {:induction false} DistinctNames(s: seq<LayerName>)
    ensures |Elements(s)| <= |s|
    ensures |Elements(s)| == |s| <==> NoDuplicates(s)
  {
    if |s| > 0 {
      var m := |s| - 1;
      var init := s[..m];
      var x := s[m];
      DistinctNames(init);
      assert s == init + [x];
      assert Elements(s) == Elements(init) + {x};
      if x in init {
        var i :| 0 <= i < m && init[i] == x;
        assert s[i] == s[m];
        assert Elements(s) == Elements(init);
      } else {
        if NoDuplicates(init) {
          forall i, j | 0 <= i < j < |s|
            ensures s[i] != s[j]
          {
            if j == m {
              assert s[i] == init[i];
            } else {
              assert s[i] == init[i] && s[j] == init[j];
            }
          }
        } else {
          var i, j :| 0 <= i < j < m && init[i] == init[j];
          assert s[i] == s[j];
        }
      }
    }
  }

  /** The shared names cover all of `T` exactly when `T` lies inside `S`. */
  lemma SharedNamesCover(S: set<LayerName>, T: set<LayerName>)
    ensures |S * T| <= |T|
    ensures |S * T| == |T| <==> T <= S
  {
    SubsetCardinality(S * T, T);
    if !(T <= S) {
      var x :| x in T && x !in S;
      SubsetCardinality(S * T, T - {x});
    } else {
      assert S * T == T;
    }
  }

  /**
   With the model's children uniquely named (as `named_children` yields
   them), the constructor's assertion holds exactly when the configured
   layers are duplicate-free and each names a child.
   */
  lemma HookCheckPassesIff(children: seq<LayerName>, layers: seq<LayerName>)
    requires NoDuplicates(children)
    ensures HookCount(children, layers) == |layers| <==>
              NoDuplicates(layers) && forall x :: x in layers ==> x in children
  {
    HookCountIsSharedNames(children, layers);
    DistinctNames(layers);
    SharedNamesCover(Elements(children), Elements(layers));
    if forall x :: x in layers ==> x in children {
      assert Elements(layers) <= Elements(children);
    }
    if Elements(layers) <= Elements(children) {
      forall x | x in layers
        ensures x in children
      {
        assert x in Elements(layers);
      }
    }
  }

  /** Three layers each returning the two class-1 samples as neighbours give six votes for class 1. */
  lemma ExampleVotes(yTrain: seq<nat>, searched: seq<NeighbourMatrix>)
    requires yTrain == [0, 0, 1, 1]
    requires searched == [[[2, 3]], [[2, 3]], [[2, 3]]]
    ensures WellFormedLayers(searched, 1, 2, |yTrain|)
    ensures VoteLabels(yTrain, searched, 1, 2, 0) == [1, 1, 1, 1, 1, 1]
  {
    var I: NeighbourMatrix := [[2, 3]];
    assert WellFormedSearch(I, 1, 2, 4);
    assert LabelRow(yTrain, I[0]) == [1, 1];
    assert searched[..2] == [I, I];
    assert searched[..2][..1] == [I];
    assert VoteLabels(yTrain, searched[..1], 1, 2, 0) == [1, 1];
    assert VoteLabels(yTrain, searched[..2], 1, 2, 0) == [1, 1, 1, 1];
  }

  lemma ExampleTally(row: seq<nat>, votes: seq<nat>)
    requires votes == [1, 1, 1, 1, 1, 1]
    requires |row| == 10
    requires forall c :: 0 <= c < 10 ==> row[c] == multiset(votes)[c]
    ensures row == [0, 6, 0, 0, 0, 0, 0, 0, 0, 0]
  {
    assert multiset(votes) == multiset{1, 1, 1, 1, 1, 1};
    forall c | 0 <= c < 10
      ensures row[c] == if c == 1 then 6 else 0
    {
      assert multiset(votes)[c] == if c == 1 then 6 else 0;
    }
  }

  lemma ExampleRow(d: Dknn, searched: seq<NeighbourMatrix>)
    requires Configured(d)
    requires |searched| == |d.layers|
    requires WellFormedLayers(searched, 1, d.k, |d.yTrain|)
    requires VoteLabels(d.yTrain, searched, 1, d.k, 0) == [1, 1, 1, 1, 1, 1]
    ensures Classify(d, searched, 1) == [[0, 6, 0, 0, 0, 0, 0, 0, 0, 0]]
  {
    var counts := Classify(d, searched, 1);
    ExampleTally(counts[0], VoteLabels(d.yTrain, searched, 1, d.k, 0));
  }

  /**
   A small classification: three layers, `k = 2`, training labels `[0, 0, 1, 1]`,
   and one query whose two neighbours at every layer are the two samples of
   class 1. Its vote row has all six votes on class 1.
   */
  lemma EndToEndExample(d: Dknn, searched: seq<NeighbourMatrix>)
    requires d == Dknn([0, 0, 1, 1], ["relu1", "relu2", "relu3"], 2, 10, [])
    requires searched == [[[2, 3]], [[2, 3]], [[2, 3]]]
    ensures Configured(d) && WellFormedLayers(searched, 1, 2, 4)
    ensures Classify(d, searched, 1) == [[0, 6, 0, 0, 0, 0, 0, 0, 0, 0]]
  {
    ExampleVotes(d.yTrain, searched);
    ExampleRow(d, searched);
  }
}

=== FILE: credibility.dfy ===
/**
 Credibility of `DKNN.credibility`: the rank-based p-value of conformal
 prediction. A vote row's nonconformity `a = kL - max(row)` is compared with
 the calibration scores `A`; the credibility is the fraction of calibration
 scores at least `a`.
 */
module Credibility {

  /** `np.max(row)`: the largest vote count of a row. */
  function Max(row: seq<nat>): (m: nat)
    requires |row| > 0
    ensures m in row
    ensures forall j :: 0 <= j < |row| ==> row[j] <= m
  {
    if |row| == 1 then row[0]
    else
      var rest := Max(row[..|row| - 1]);
      var last := row[|row| - 1];
      assert row == row[..|row| - 1] + [last];
      if rest < last then last else rest
  }

  /** `np.sum(A >= a)`: how many calibration scores are at least `a`. */
  function CountAtLeast(A: seq<int>, a: int): (n: nat)
    ensures n <= |A|
  {
    if |A| == 0 then 0
    else CountAtLeast(A[..|A| - 1], a) + (if A[|A| - 1] >= a then 1 else 0)
  }

  /** Reference definition: the set of calibration indices whose score is at least `a`. */
  ghost function AtLeastIndices(A: seq<int>, a: int): set<nat>
  {
    set j: nat | j < |A| && A[j] >= a
  }

  /** The count is the size of `{j : A[j] >= a}`; ties with `a` are counted. */
  lemma {:induction false} CountAtLeastIsCardinality(A: seq<int>, a: int)
    ensures CountAtLeast(A, a) == |AtLeastIndices(A, a)|
  {
    if |A| > 0 {
      var m := |A| - 1;
      CountAtLeastIsCardinality(A[..m], a);
      var before := AtLeastIndices(A[..m], a);
      if A[m] >= a {
        assert AtLeastIndices(A, a) == before + {m};
      } else {
        assert AtLeastIndices(A, a) == before;
      }
    }
  }

  /** Raising the threshold never counts more scores. */
  lemma {:induction false} CountAtLeastAntitone(A: seq<int>, a1: int, a2: int)
    requires a1 <= a2
    ensures CountAtLeast(A, a2) <= CountAtLeast(A, a1)
  {
    if |A| > 0 {
      CountAtLeastAntitone(A[..|A| - 1], a1, a2);
    }
  }

  /** A threshold no score exceeds counts every score. */
  lemma {:induction false} CountAtLeastAll(A: seq<int>, a: int)
    requires forall j :: 0 <= j < |A| ==> a <= A[j]
    ensures CountAtLeast(A, a) == |A|
  {
    if |A| > 0 {
      CountAtLeastAll(A[..|A| - 1], a);
    }
  }

  /** A threshold above every score counts none. */
  lemma {:induction false} CountAtLeastNone(A: seq<int>, a: int)
    requires forall j :: 0 <= j < |A| ==> A[j] < a
    ensures CountAtLeast(A, a) == 0
  {
    if |A| > 0 {
      CountAtLeastNone(A[..|A| - 1], a);
    }
  }

  /** Counting over a concatenation adds the two counts. */
  lemma {:induction false} CountAtLeastAppend(A: seq<int>, B: seq<int>, a: int)
    ensures CountAtLeast(A + B, a) == CountAtLeast(A, a) + CountAtLeast(B, a)
  {
    if |B| == 0 {
      assert A + B == A;
    } else {
      assert (A + B)[..|A + B| - 1] == A + B[..|B| - 1];
      CountAtLeastAppend(A, B[..|B| - 1], a);
    }
  }

  /** Removing the score at position `p` removes its contribution to the count. */
  lemma CountAtLeastRemove(B: seq<int>, p: nat, a: int)
    requires p < |B|
    ensures CountAtLeast(B, a) == CountAtLeast(B[..p] + B[p + 1..], a) + (if B[p] >= a then 1 else 0)
  {
    assert B == B[..p] + [B[p]] + B[p + 1..];
    CountAtLeastAppend(B[..p] + [B[p]], B[p + 1..], a);
    CountAtLeastAppend(B[..p], [B[p]], a);
    CountAtLeastAppend(B[..p], B[p + 1..], a);
  }

  /** Removing equal elements from two permutations of each other leaves permutations. */
  lemma RemoveFromPermutation(A: seq<int>, B: seq<int>, p: nat)
    requires multiset(A) == multiset(B)
    requires |A| > 0 && p < |B| && B[p] == A[|A| - 1]
    ensures multiset(A[..|A| - 1]) == multiset(B[..p] + B[p + 1..])
  {
    var m := |A| - 1;
    var x := A[m];
    assert A == A[..m] + [x];
    assert B == B[..p] + [x] + B[p + 1..];
    assert multiset(B) == multiset(B[..p] + B[p + 1..]) + multiset{x};
    assert multiset(A[..m]) == multiset(A) - multiset{x};
    assert multiset(B[..p] + B[p + 1..]) == multiset(B) - multiset{x};
  }

  /**
   The count depends only on the multiset of scores, not on their order:
   calibration scores need not be sorted.
   */
  lemma {:induction false} CountAtLeastPermutation(A: seq<int>, B: seq<int>, a: int)
    requires multiset(A) == multiset(B)
    ensures CountAtLeast(A, a) == CountAtLeast(B, a)
    decreases |A|
  {
    if |A| > 0 {
      var m := |A| - 1;
      assert A[m] in multiset(B) by {
        assert A[m] in multiset(A);
      }
      var p :| 0 <= p < |B| && B[p] == A[m];
      RemoveFromPermutation(A, B, p);
      CountAtLeastPermutation(A[..m], B[..p] + B[p + 1..], a);
      CountAtLeastRemove(B, p, a);
    } else {
      assert |B| == |multiset(B)|;
    }
  }

  /** Credibility for a nonconformity `a`: the fraction of calibration scores at least `a`. */
  function CredibilityAt(A: seq<int>, a: int): (cred: real)
    requires |A| > 0
    ensures 0.0 <= cred <= 1.0
  {
    CountAtLeast(A, a) as real / |A| as real
  }

  /**
   Nonconformity of a row's best-supported class, `k*L - max(row)`: the
   smallest of the per-class nonconformities `k*L - row[c]`.
   */
  function Alpha(kL: nat, row: seq<nat>): (a: int)
    requires |row| > 0
    ensures a <= kL
    ensures forall c :: 0 <= c < |row| ==> a <= kL - row[c]
    ensures exists c :: 0 <= c < |row| && a == kL - row[c]
  {
    kL - Max(row)
  }

  /** Credibility of one vote row against the calibration scores `A`. */
  function RowCredibility(A: seq<int>, kL: nat, row: seq<nat>): (cred: real)
    requires |A| > 0
    requires |row| > 0
    ensures 0.0 <= cred <= 1.0
  {
    CredibilityAt(A, Alpha(kL, row))
  }

  /**
   `DKNN.credibility` over a matrix of vote rows: one value per row, in row
   order, row `i`'s value computed from row `i` and `A` alone.
   */
  function Credibilities(A: seq<int>, kL: nat, rows: seq<seq<nat>>): (creds: seq<real>)
    requires |A| > 0
    requires forall i :: 0 <= i < |rows| ==> |rows[i]| > 0
    ensures |creds| == |rows|
    ensures forall i :: 0 <= i < |rows| ==> creds[i] == RowCredibility(A, kL, rows[i])
    ensures forall i :: 0 <= i < |rows| ==> 0.0 <= creds[i] <= 1.0
  {
    if |rows| == 0 then []
    else Credibilities(A, kL, rows[..|rows| - 1]) + [RowCredibility(A, kL, rows[|rows| - 1])]
  }

  /** Credibility is non-increasing in the nonconformity `a`. */
  lemma CredibilityAntitone(A: seq<int>, a1: int, a2: int)
    requires |A| > 0
    requires a1 <= a2
    ensures CredibilityAt(A, a2) <= CredibilityAt(A, a1)
  {
    CountAtLeastAntitone(A, a1, a2);
    DivideMonotone(CountAtLeast(A, a2) as real, CountAtLeast(A, a1) as real, |A| as real);
  }

  lemma SelfDivision(d: real)
    requires 0.0 < d
    ensures d / d == 1.0
  {
  }

  lemma DivideMonotone(x: real, y: real, d: real)
    requires x <= y
    requires 0.0 < d
    ensures x / d <= y / d
  {
  }

  /** Credibility is non-decreasing in a row's largest vote count. */
  lemma CredibilityMonotoneInMax(A: seq<int>, kL: nat, row1: seq<nat>, row2: seq<nat>)
    requires |A| > 0
    requires |row1| > 0 && |row2| > 0
    requires Max(row1) <= Max(row2)
    ensures RowCredibility(A, kL, row1) <= RowCredibility(A, kL, row2)
  {
    CredibilityAntitone(A, Alpha(kL, row2), Alpha(kL, row1));
  }

  /**
   With every calibration score non-negative, a row whose largest count is
   the full `kL` votes has `a = 0` and credibility exactly one.
   */
  lemma UnanimousRowFullyCredible(A: seq<int>, kL: nat, row: seq<nat>)
    requires |A| > 0
    requires |row| > 0
    requires forall j :: 0 <= j < |A| ==> 0 <= A[j]
    requires Max(row) == kL
    ensures RowCredibility(A, kL, row) == 1.0
  {
    assert Alpha(kL, row) == 0;
    CountAtLeastAll(A, 0);
    SelfDivision(|A| as real);
  }

  /** A nonconformity above every calibration score has credibility zero. */
  lemma StrangestRowZeroCredible(A: seq<int>, kL: nat, row: seq<nat>)
    requires |A| > 0
    requires |row| > 0
    requires forall j :: 0 <= j < |A| ==> A[j] < Alpha(kL, row)
    ensures RowCredibility(A, kL, row) == 0.0
  {
    CountAtLeastNone(A, Alpha(kL, row));
  }

  /** Scoring a batch in two parts gives the two parts' scores, in order. */
  lemma {:induction false} CredibilitiesAppend(A: seq<int>, kL: nat, rows1: seq<seq<nat>>, rows2: seq<seq<nat>>)
    requires |A| > 0
    requires forall i :: 0 <= i < |rows1| ==> |rows1[i]| > 0
    requires forall i :: 0 <= i < |rows2| ==> |rows2[i]| > 0
    ensures Credibilities(A, kL, rows1 + rows2) == Credibilities(A, kL, rows1) + Credibilities(A, kL, rows2)
  {
    var all := rows1 + rows2;
    assert forall i :: 0 <= i < |all| ==> |all[i]| > 0;
    var lhs := Credibilities(A, kL, all);
    var rhs := Credibilities(A, kL, rows1) + Credibilities(A, kL, rows2);
    assert |lhs| == |rhs|;
    forall i | 0 <= i < |lhs|
      ensures lhs[i] == rhs[i]
    {
      if i < |rows1| {
        assert all[i] == rows1[i];
      } else {
        assert all[i] == rows2[i - |rows1|];
      }
    }
  }

  /** Five calibration scores `[0, 1, 1, 2, 4]` and a nonconformity of 1: four of five scores are at least 1. */
  lemma CalibrationExample()
    ensures CredibilityAt([0, 1, 1, 2, 4], 1) == 0.8
  {
    var A: seq<int> := [0, 1, 1, 2, 4];
    assert A[..4] == [0, 1, 1, 2];
    assert A[..4][..3] == [0, 1, 1];
    assert A[..4][..3][..2] == [0, 1];
    assert A[..4][..3][..2][..1] == [0];
    assert A[..4][..3][..2][..1][..0] == [];
    assert CountAtLeast([0], 1) == 0;
    assert CountAtLeast([0, 1], 1) == 1;
    assert CountAtLeast([0, 1, 1], 1) == 2;
    assert CountAtLeast([0, 1, 1, 2], 1) == 3;
    assert CountAtLeast(A, 1) == 4;
  }
}

=== FILE: histogram.dfy ===
/**
 Integer histograms as numpy builds them: `np.bincount` of a row of class
 labels, element-wise addition of two count rows, and the sum of a row.
 */
module Histogram {

  /** `minlength` passed to `np.bincount` by `DKNN.classify`. */
  const BincountMinLength: nat := 10

  /** Sum of a row of counts. */
  function Sum(s: seq<nat>): (total: nat)
  {
    if |s| == 0 then 0 else Sum(s[..|s| - 1]) + s[|s| - 1]
  }

  /** A row of `n` zero counts (`np.zeros`). */
  function Zeros(n: nat): (z: seq<nat>)
    ensures |z| == n
    ensures forall i :: 0 <= i < n ==> z[i] == 0
  {
    seq(n, _ => 0)
  }

  lemma {:induction false} SumAppend(a: seq<nat>, b: seq<nat>)
    ensures Sum(a + b) == Sum(a) + Sum(b)
  {
    if |b| == 0 {
      assert a + b == a;
    } else {
      assert (a + b)[..|a + b| - 1] == a + b[..|b| - 1];
      SumAppend(a, b[..|b| - 1]);
    }
  }

  lemma {:induction false} SumZeros(n: nat)
    ensures Sum(Zeros(n)) == 0
  {
    if n > 0 {
      assert Zeros(n)[..n - 1] == Zeros(n - 1);
      SumZeros(n - 1);
    }
  }

  lemma SumSingleton(x: nat)
    ensures Sum([x]) == x
  {
    assert [x][..0] == [];
  }

  /** Replacing one cell changes the sum by exactly the difference. */
  lemma SumUpdate(s: seq<nat>, i: nat, v: nat)
    requires i < |s|
    ensures Sum(s[i := v]) + s[i] == Sum(s) + v
  {
    assert s == s[..i] + [s[i]] + s[i + 1..];
    assert s[i := v] == s[..i] + [v] + s[i + 1..];
    SumAppend(s[..i] + [s[i]], s[i + 1..]);
    SumAppend(s[..i] + [v], s[i + 1..]);
    SumAppend(s[..i], [s[i]]);
    SumAppend(s[..i], [v]);
    SumSingleton(s[i]);
    SumSingleton(v);
  }

  /** No cell of a count row exceeds the row's total. */
  lemma CellAtMostSum(s: seq<nat>, i: nat)
    requires i < |s|
    ensures s[i] <= Sum(s)
  {
    SumUpdate(s, i, 0);
  }

  /** Adds one occurrence of label `x`, growing the row when `x` is past its end. */
  function Increment(h: seq<nat>, x: nat): (r: seq<nat>)
    ensures |r| == if x < |h| then |h| else x + 1
    ensures r[x] == (if x < |h| then h[x] else 0) + 1
    ensures forall c :: 0 <= c < |r| && c != x ==> r[c] == (if c < |h| then h[c] else 0)
    ensures Sum(r) == Sum(h) + 1
  {
    if x < |h| then
      SumUpdate(h, x, h[x] + 1);
      h[x := h[x] + 1]
    else
      SumAppend(h, Zeros(x - |h|));
      SumAppend(h + Zeros(x - |h|), [1]);
      SumZeros(x - |h|);
      SumSingleton(1);
      h + Zeros(x - |h|) + [1]
  }

  /**
   `np.bincount(xs, minlength)`: cell `c` holds the number of occurrences of
   `c` in `xs`; the row is `minlength` long, or one past the largest label
   when that is longer.
   */
  function Bincount(xs: seq<nat>, minlength: nat): (r: seq<nat>)
    ensures minlength <= |r|
    ensures forall x :: x in xs ==> x < |r|
    ensures |r| == minlength || (|r| > 0 && |r| - 1 in xs)
    ensures forall c :: 0 <= c < |r| ==> r[c] == multiset(xs)[c]
    ensures Sum(r) == |xs|
  {
    if |xs| == 0 then
      SumZeros(minlength);
      Zeros(minlength)
    else
      var init := xs[..|xs| - 1];
      var x := xs[|xs| - 1];
      var h := Bincount(init, minlength);
      assert xs == init + [x];
      assert multiset(xs) == multiset(init) + multiset{x};
      assert forall c :: |h| <= c ==> c !in init && multiset(init)[c] == 0;
      Increment(h, x)
  }

  /** With every label below `minlength`, the histogram is exactly `minlength` long. */
  lemma BincountLength(xs: seq<nat>, minlength: nat)
    requires forall x :: x in xs ==> x < minlength
    ensures |Bincount(xs, minlength)| == minlength
  {
  }

  /** Element-wise sum of two count rows of equal length (`row += other`). */
  function AddRow(a: seq<nat>, b: seq<nat>): (r: seq<nat>)
    requires |a| == |b|
    ensures |r| == |a|
    ensures forall c :: 0 <= c < |r| ==> r[c] == a[c] + b[c]
    ensures Sum(r) == Sum(a) + Sum(b)
  {
    if |a| == 0 then []
    else
      var m := |a| - 1;
      var prefix := AddRow(a[..m], b[..m]);
      SumAppend(prefix, [a[m] + b[m]]);
      SumSingleton(a[m] + b[m]);
      assert a[..m + 1][..m] == a[..m];
      prefix + [a[m] + b[m]]
  }
}

=== FILE: neighbours.dfy ===
/**
 Neighbour search results and the layer filtering of `DKNN.get_neighbors`.

 The approximate index itself is not modelled: what one layer's index
 returns for a batch is a `NeighbourMatrix`, one row of training positions
 per query sample (the `I` array of a search).
 */
module Neighbours {

  type LayerName = string

  /** One layer's search result: row `i` lists the training positions of sample `i`'s neighbours. */
  type NeighbourMatrix = seq<seq<nat>>

  /**
   What a search of `k` neighbours for `n` query samples returns: `n` rows of
   `k` positions, each naming one of the `numTrain` indexed training samples.
   */
  predicate WellFormedSearch(I: NeighbourMatrix, n: nat, k: nat, numTrain: nat)
  {
    && |I| == n
    && forall i :: 0 <= i < |I| ==>
         |I[i]| == k && forall j :: 0 <= j < |I[i]| ==> I[i][j] < numTrain
  }

  /** Every layer's search result is well formed. */
  predicate WellFormedLayers(nb: seq<NeighbourMatrix>, n: nat, k: nat, numTrain: nat)
  {
    forall l :: 0 <= l < |nb| ==> WellFormedSearch(nb[l], n, k, numTrain)
  }

  /**
   Positions, in the classifier's layer order, of the layers whose name is
   among `requested`. Exactly those positions appear, each once, ascending.
   */
  function SelectedPositions(layers: seq<LayerName>, requested: seq<LayerName>): (p: seq<nat>)
    ensures forall t :: 0 <= t < |p| ==> p[t] < |layers| && layers[p[t]] in requested
    ensures forall t, u :: 0 <= t < u < |p| ==> p[t] < p[u]
    ensures forall l :: 0 <= l < |layers| && layers[l] in requested ==> l in p
  {
    if |layers| == 0 then []
    else
      var m := |layers| - 1;
      SelectedPositions(layers[..m], requested) + (if layers[m] in requested then [m] else [])
  }

  /**
   The loop of `get_neighbors` over `zip(self.layers, self.indices)`: keeps
   the search result of every layer whose name is in `requested`, in layer
   order. `searched[l]` is what the index of `layers[l]` returns.
   */
  function FilterLayers(layers: seq<LayerName>, searched: seq<NeighbourMatrix>,
                        requested: seq<LayerName>): (out: seq<NeighbourMatrix>)
    requires |searched| == |layers|
    ensures |out| == |SelectedPositions(layers, requested)|
    ensures forall t :: 0 <= t < |out| ==>
              out[t] == searched[SelectedPositions(layers, requested)[t]]
  {
    if |layers| == 0 then []
    else
      var m := |layers| - 1;
      FilterLayers(layers[..m], searched[..m], requested)
        + (if layers[m] in requested then [searched[m]] else [])
  }

  /** When every layer is requested, every position is selected, in order. */
  lemma {:induction false} AllRequestedSelectsAll(layers: seq<LayerName>, requested: seq<LayerName>)
    requires forall l :: 0 <= l < |layers| ==> layers[l] in requested
    ensures SelectedPositions(layers, requested) == seq(|layers|, l => l)
  {
    if |layers| > 0 {
      var m := |layers| - 1;
      AllRequestedSelectsAll(layers[..m], requested);
    }
  }

  /** Requesting every layer keeps every search result unchanged and in order. */
  lemma FilterAllLayers(layers: seq<LayerName>, searched: seq<NeighbourMatrix>)
    requires |searched| == |layers|
    ensures FilterLayers(layers, searched, layers) == searched
  {
    AllRequestedSelectsAll(layers, layers);
  }

  /** Filtering keeps well-formedness: every kept result is one of the searched ones. */
  lemma FilterWellFormed(layers: seq<LayerName>, searched: seq<NeighbourMatrix>,
                         requested: seq<LayerName>, n: nat, k: nat, numTrain: nat)
    requires |searched| == |layers|
    requires WellFormedLayers(searched, n, k, numTrain)
    ensures WellFormedLayers(FilterLayers(layers, searched, requested), n, k, numTrain)
  {
  }

  /** A requested name that names no layer is ignored: nothing is rejected. */
  lemma {:induction false} UnknownNameIgnored(layers: seq<LayerName>, searched: seq<NeighbourMatrix>,
                                              requested: seq<LayerName>, unknown: LayerName)
    requires |searched| == |layers|
    requires unknown !in layers
    ensures FilterLayers(layers, searched, requested + [unknown]) == FilterLayers(layers, searched, requested)
  {
    if |layers| > 0 {
      var m := |layers| - 1;
      assert layers[m] in requested + [unknown] <==> layers[m] in requested;
      UnknownNameIgnored(layers[..m], searched[..m], requested, unknown);
    }
  }
}

=== FILE: votes.dfy ===
/**
 Vote aggregation of `DKNN.classify`: every neighbour position is mapped
 through the shared training-label array and the labels are tallied into a
 per-sample, per-class count matrix, summed over the queried layers.
 */
module Votes {
  import opened Histogram
  import opened Neighbours

  /** Every training label is a class index below `numClasses`. */
  predicate LabelsInRange(yTrain: seq<nat>, numClasses: nat)
  {
    forall p :: 0 <= p < |yTrain| ==> yTrain[p] < numClasses
  }

  /** `y_train[I[i]]`: the labels of one row of neighbour positions. */
  function LabelRow(yTrain: seq<nat>, row: seq<nat>): (ys: seq<nat>)
    requires forall j :: 0 <= j < |row| ==> row[j] < |yTrain|
    ensures |ys| == |row|
    ensures forall j :: 0 <= j < |row| ==> ys[j] == yTrain[row[j]]
  {
    seq(|row|, j requires 0 <= j < |row| => yTrain[row[j]])
  }

  /**
   Reference definition of the votes of query sample `i`: the label of every
   (layer, neighbour) pair, layer by layer, neighbour by neighbour.
   */
  function VoteLabels(yTrain: seq<nat>, nb: seq<NeighbourMatrix>, n: nat, k: nat, i: nat): (votes: seq<nat>)
    requires WellFormedLayers(nb, n, k, |yTrain|)
    requires i < n
  {
    if |nb| == 0 then []
    else VoteLabels(yTrain, nb[..|nb| - 1], n, k, i) + LabelRow(yTrain, nb[|nb| - 1][i])
  }

  /** Each queried layer contributes exactly `k` votes to every sample. */
  lemma {:induction false} VoteLabelsLength(yTrain: seq<nat>, nb: seq<NeighbourMatrix>, n: nat, k: nat, i: nat)
    requires WellFormedLayers(nb, n, k, |yTrain|)
    requires i < n
    ensures |VoteLabels(yTrain, nb, n, k, i)| == k * |nb|
  {
    if |nb| > 0 {
      VoteLabelsLength(yTrain, nb[..|nb| - 1], n, k, i);
      assert k * |nb| == k * (|nb| - 1) + k;
    }
  }

  /** Every vote is the label of some training sample, hence a valid class. */
  lemma {:induction false} VoteLabelsInRange(yTrain: seq<nat>, nb: seq<NeighbourMatrix>, n: nat, k: nat,
                                             i: nat, numClasses: nat)
    requires WellFormedLayers(nb, n, k, |yTrain|)
    requires LabelsInRange(yTrain, numClasses)
    requires i < n
    ensures forall v :: v in VoteLabels(yTrain, nb, n, k, i) ==> v < numClasses
  {
    if |nb| > 0 {
      VoteLabelsInRange(yTrain, nb[..|nb| - 1], n, k, i, numClasses);
    }
  }

  /** `np.bincount(y_train[I[i]], minlength=10)` for one sample of one layer. */
  function LayerHistogram(yTrain: seq<nat>, I: NeighbourMatrix, n: nat, k: nat, i: nat): (h: seq<nat>)
    requires WellFormedSearch(I, n, k, |yTrain|)
    requires LabelsInRange(yTrain, BincountMinLength)
    requires i < n
    ensures |h| == BincountMinLength
    ensures Sum(h) == k
    ensures forall c :: 0 <= c < |h| ==> h[c] == multiset(LabelRow(yTrain, I[i]))[c]
  {
    var ys := LabelRow(yTrain, I[i]);
    BincountLength(ys, BincountMinLength);
    Bincount(ys, BincountMinLength)
  }

  /**
   The class-count matrix of `classify`: start from zeros and, for each
   queried layer, add every sample's label histogram to that sample's row.
   Cell `[i][c]` is the number of (layer, neighbour) pairs of sample `i`
   whose training label is `c`, and every row sums to `k` times the number
   of layers.
   */
  function ClassCounts(yTrain: seq<nat>, nb: seq<NeighbourMatrix>, n: nat, k: nat, numClasses: nat)
    : (counts: seq<seq<nat>>)
    requires numClasses == BincountMinLength
    requires LabelsInRange(yTrain, numClasses)
    requires WellFormedLayers(nb, n, k, |yTrain|)
    ensures |counts| == n
    ensures forall i :: 0 <= i < n ==> |counts[i]| == numClasses
    ensures forall i :: 0 <= i < n ==> Sum(counts[i]) == k * |nb|
    ensures forall i, c :: 0 <= i < n && 0 <= c < numClasses ==>
              counts[i][c] == multiset(VoteLabels(yTrain, nb, n, k, i))[c]
  {
    if |nb| == 0 then
      SumZeros(numClasses);
      seq(n, _ => Zeros(numClasses))
    else
      var m := |nb| - 1;
      var prev := ClassCounts(yTrain, nb[..m], n, k, numClasses);
      var counts := seq(n, i requires 0 <= i < n => AddRow(prev[i], LayerHistogram(yTrain, nb[m], n, k, i)));
      forall i | 0 <= i < n
        ensures Sum(counts[i]) == k * |nb|
        ensures forall c :: 0 <= c < numClasses ==> counts[i][c] == multiset(VoteLabels(yTrain, nb, n, k, i))[c]
      {
        AddLayerRow(yTrain, nb, n, k, i, prev[i], counts[i]);
        AddLayerSum(nb, k, prev[i], LayerHistogram(yTrain, nb[m], n, k, i), counts[i]);
      }
      counts
  }

  /** The votes over all layers are the earlier layers' votes followed by the last layer's. */
  lemma VoteLabelsStep(yTrain: seq<nat>, nb: seq<NeighbourMatrix>, n: nat, k: nat, i: nat)
    requires WellFormedLayers(nb, n, k, |yTrain|)
    requires |nb| > 0 && i < n
    ensures multiset(VoteLabels(yTrain, nb, n, k, i))
            == multiset(VoteLabels(yTrain, nb[..|nb| - 1], n, k, i)) + multiset(LabelRow(yTrain, nb[|nb| - 1][i]))
  {
  }

  /**
   Adding the last layer's histogram to a row that tallies the earlier
   layers' votes gives a row that tallies all layers' votes.
   */
  lemma AddLayerRow(yTrain: seq<nat>, nb: seq<NeighbourMatrix>, n: nat, k: nat, i: nat,
                    prev: seq<nat>, row: seq<nat>)
    requires LabelsInRange(yTrain, BincountMinLength)
    requires WellFormedLayers(nb, n, k, |yTrain|)
    requires |nb| > 0 && i < n
    requires |prev| == BincountMinLength
    requires forall c :: 0 <= c < |prev| ==>
               prev[c] == multiset(VoteLabels(yTrain, nb[..|nb| - 1], n, k, i))[c]
    requires row == AddRow(prev, LayerHistogram(yTrain, nb[|nb| - 1], n, k, i))
    ensures forall c :: 0 <= c < |row| ==> row[c] == multiset(VoteLabels(yTrain, nb, n, k, i))[c]
  {
    VoteLabelsStep(yTrain, nb, n, k, i);
  }

  /** One more layer adds `k` votes to every row. */
  lemma AddLayerSum(nb: seq<NeighbourMatrix>, k: nat, prev: seq<nat>, h: seq<nat>, row: seq<nat>)
    requires |nb| > 0
    requires |prev| == |h|
    requires Sum(prev) == k * (|nb| - 1)
    requires Sum(h) == k
    requires row == AddRow(prev, h)
    ensures Sum(row) == k * |nb|
  {
    assert k * |nb| == k * (|nb| - 1) + k;
  }

  /** Every cell of a count row is bounded by the total number of votes. */
  lemma CountsBounded(yTrain: seq<nat>, nb: seq<NeighbourMatrix>, n: nat, k: nat, numClasses: nat)
    requires numClasses == BincountMinLength
    requires LabelsInRange(yTrain, numClasses)
    requires WellFormedLayers(nb, n, k, |yTrain|)
    ensures forall i, c :: 0 <= i < n && 0 <= c < numClasses ==>
              ClassCounts(yTrain, nb, n, k, numClasses)[i][c] <= k * |nb|
  {
    var counts := ClassCounts(yTrain, nb, n, k, numClasses);
    forall i, c | 0 <= i < n && 0 <= c < numClasses
      ensures counts[i][c] <= k * |nb|
    {
      CellAtMostSum(counts[i], c);
    }
  }

  /** How many votes name a class other than `y`. */
  function Disagreements(votes: seq<nat>, y: nat): (n: nat)
  {
    if |votes| == 0 then 0
    else Disagreements(votes[..|votes| - 1], y) + (if votes[|votes| - 1] != y then 1 else 0)
  }

  /** Every vote either agrees with `y` or is one of its disagreements. */
  lemma {:induction false} AgreementsPlusDisagreements(votes: seq<nat>, y: nat)
    ensures multiset(votes)[y] + Disagreements(votes, y) == |votes|
  {
    if |votes| > 0 {
      var m := |votes| - 1;
      assert votes == votes[..m] + [votes[m]];
      AgreementsPlusDisagreements(votes[..m], y);
    }
  }
}
